=== FILE: README.md ===
# Microsoft 365 MCP chat client: tool-calling orchestration

This project models the core of `client.py`, a console client that sits between
an OpenAI-compatible chat-completion API and an ms-365-mcp-server. It covers:

- the static catalogue of Microsoft 365 tool descriptors (`get_m365_tools`), and
  the choice between that catalogue and the single `connect_and_authenticate`
  bootstrap descriptor;
- the `M365Agent` object with its two fields `mcp_client` and
  `_client_context`:
  - `connect_and_authenticate`: enter the client context, log in, verify the
    login, and disconnect on any failure;
  - `execute_tool`: map `-` to `_` and call the client function;
  - `disconnect`;
- the body of `chat_loop` for one user input:
  - append the user entry;
  - make the first completion request with the visible tools;
  - on a plain reply, append the assistant's content;
  - on a tool round, append the assistant message, run the tool calls in
    order, append one tool message per call, then make a follow-up request
    without tools and append its reply;
  - when an exception escapes, run the handler that pops a trailing user entry.

The model has four modules:

- `Wrappers`: `Option` and `Result`.
- `Catalog`: tool descriptors, visibility, and the tool-name-to-client-function
  mapping.
- `Agent`: the agent's fields as a `Session` value, with the specification
  functions `ConnectResult`, `ExecuteResult` and `DisconnectResult`. The class
  `M365Agent` updates its fields in place, and each of its methods is proved
  equal to one of those functions.
- `Chat`: the history's message types, and the specification functions
  `RunCalls`, `ToolRound` and `Turn`, with the lemmas about them. The class
  `ChatSession` holds the history as a field, and its methods are proved equal
  to those functions.

Everything outside the process is an oracle parameter:

- A `ConnectScript` gives the client context and the outcome of entering it,
  the login and verify-login replies, and the decoded verification object.
- A `Reply` is what a client function does: it raises an `AttributeError` or
  another exception, or it returns an envelope or nothing.
- A `Completion` is either a failed request or the assistant message returned.
- For each tool call, a `CallScript` gives the decoded arguments or the
  decoding error, and the connect script and reply for that call.

Each agent operation also returns a trace of the remote operations it
performed (enter, login, verify-login, a client function, exit). This makes
"no remote call is made" a statement about a result.

Two points about the code shape the model:

- Connection state is the two optional fields, and "connected" means
  `mcp_client` is set. No separate authentication state is kept.
- Errors are plain exceptions turned into strings: the failure message of
  `connect_and_authenticate`, the error texts of `execute_tool`, and the
  message printed by the chat loop's handler.

## Model

| member | source | states |
|---|---|---|
| Catalog.BootstrapTool | client.py:170-177 | The descriptor offered while disconnected is named `connect_and_authenticate` and takes no parameters (an empty object schema). |
| Catalog.M365Tools | client.py:45-55 | The static catalogue has exactly seven tools, and their names are, in order, the seven Microsoft 365 tool names. |
| Catalog.VisibleTools | client.py:168-179 | Without a client, exactly one tool is offered: the bootstrap descriptor. With a client, the whole static list is offered. The bootstrap name is visible if and only if the agent is not connected. |
| Catalog.Underscored | client.py:113 | The client function name has the tool name's length, with every `-` replaced by `_` and every other character kept. |
| Catalog.UnderscoredIsNormal | client.py:113 | A client function name contains no `-`, and mapping it again leaves it unchanged. |
| Catalog.UnderscoredInjective | client.py:113 | Two tool names without `_` that map to the same client function are equal. |
| Catalog.DistinctDispatch | client.py:113 | Pairwise distinct tool names without `_` map to pairwise distinct client functions. |
| Catalog.M365ToolsDispatchDistinct | client.py:45-55 | The seven static tools reach seven different client functions, and none of them is the bootstrap name. |
| Agent.CheckedTextAccepts | client.py:78-92 | The login and verify-login checks pass exactly when a reply was returned whose first `content` element has a non-empty `text`, and then yield that text. A raised exception fails with its own message; any other reply fails with the fixed "did not receive" message. |
| Agent.CheckedText | client.py:78-92 | A check that passes yields a non-empty text from a returned reply. A raised exception fails with its own message. |
| Agent.ConnectFailureSteps | client.py:68-104 | From a disconnected agent, each failing step gives its own outcome, and every failure ends with both fields unset. A failed entry reports its error, with no exit. A raised login or verify-login reports the exception's message. A malformed login or verify-login answer reports the fixed "did not receive" message. A decoding error reports the decoder's message. An unsuccessful verification reports `Login verification failed: ` followed by the server's message (default `No message.`). All these messages carry the failure prefix. The remote operations stop at the failing step and end with the exit. |
| Agent.DisconnectResult | client.py:126-135 | Disconnecting always ends with both fields unset and makes at most one remote operation. |
| Agent.ConnectResult | client.py:64-104 | An attempt that leaves no client leaves no context either. From a disconnected agent, the first remote operation is entering the client for the server URL. |
| Agent.ExecuteResult | client.py:106-124 | At most one remote operation. Without a client, the not-connected error, with no remote operation. |
| Agent.DisconnectContract | client.py:126-135 | `disconnect` always leaves both fields unset. It exits the client context, exactly once, if and only if both fields were set. |
| Agent.ConnectWhenConnected | client.py:66-67 | When a client is already set, connect returns `Already connected and authenticated.`, changes nothing and makes no remote call. |
| Agent.ConnectWhenDisconnected | client.py:68-104 | From a disconnected agent, connect first enters the client for the server URL. It ends connected if and only if the script authenticates, and the success message then carries the display name (default `Unknown User`). Otherwise it ends disconnected, with the failure prefix followed by the first failing step's reason. Login happens if and only if entering succeeded. The context is exited if and only if entering succeeded and authentication failed. A successful connect performs exactly enter, login and verify-login. |
| Agent.ExecuteContract | client.py:106-124 | Disconnected: the not-connected error, with no remote call. The client function `_`-named after the tool is called, once, exactly when the client exposes it. An unknown function or a raised `AttributeError` gives "not available". Any other exception gives `Error executing tool: ` with its message. A returned `None` gives "not available". An empty `content` list gives `Error executing tool: list index out of range`. An executed call delivers the first content element's text (`''` when `content` or `text` is absent). Every other outcome is a string starting with `Error`. |
| Agent.OperationsKeepConsistent | client.py:59-135 | Connect and disconnect keep the two fields both set or both unset. |
| Agent.RepeatedCallsAreHarmless | client.py:64-135 | After a successful connect, a second connect returns the fixed answer with no remote call. A second disconnect makes no remote call. |
| Agent.M365Agent.constructor | client.py:59-62 | A new agent keeps the server URL and has neither a client nor a context. |
| Agent.M365Agent.ConnectAndAuthenticate | client.py:64-104 | The new fields, the returned message and the remote operations are those of `ConnectResult` on the old fields. |
| Agent.M365Agent.ExecuteTool | client.py:106-124 | Changes no field. The message and the remote operations are those of `ExecuteResult` on the current fields. |
| Agent.M365Agent.Disconnect | client.py:126-135 | The new fields and the remote operations are those of `DisconnectResult` on the old fields. |
| Chat.Dispatch | client.py:200-203 | A call named `connect_and_authenticate` is answered by connect, with connect's new fields and message. Any other call is answered by `execute_tool`'s message and leaves the agent's fields unchanged. |
| Chat.Step | client.py:197-205 | Once the round has stopped, a call changes nothing. Otherwise, if its arguments decode, the call appends exactly one tool message carrying its id and name. If they do not decode, the round stops with the decoding error and nothing is appended. |
| Chat.RunCalls | client.py:196-205 | The round appends one tool message per call handled, in emission order, each carrying that call's id and name. Every call that got a tool message had arguments that decode. The round either handles every call, or stops at the first call whose arguments do not decode and reports that call's decoding error. |
| Chat.StoppedRoundStaysStopped | client.py:196-198 | Once a call's arguments fail to decode, the remaining calls change nothing. |
| Chat.CompletedRoundDropLast | client.py:196-205 | If a round completes, the round without its last call also completes, and its tool messages are the first ones of the whole round. |
| Chat.RunCallsPrefix | client.py:196-205 | If a round completes, every prefix of its calls is a completed round, and that prefix's tool messages are the first ones of the whole round. |
| Chat.RunCallsOutputs | client.py:196-205 | In a completed round, call `i` had decodable arguments. It was dispatched on the fields the earlier calls left. Its tool message carries that dispatch's output. The fields it leaves are the ones the next call sees. |
| Chat.ConnectInRoundServesLaterCalls | client.py:196-205 | Suppose a `connect_and_authenticate` call authenticates from a disconnected agent. Then its tool message carries the success message with the display name, and the next call in the same batch runs `execute_tool` on the connected agent. |
| Chat.Rollback | client.py:221-228 | The handler yields a prefix of the history. It is shorter exactly when the last entry is a user entry, and then by exactly that one entry. |
| Chat.FollowUp | client.py:207-215 | The follow-up request sends the extended history without tools. A reply with content is the turn's answer, and an answer is that reply's content, appended after the tool results. A failure removes nothing from a history that does not end with a user entry. |
| Chat.Turn | client.py:166-228 | The first request of every turn sends the history plus the user entry and offers the given tools. |
| Chat.ToolRound | client.py:192-215 | The agent's fields after a tool round are those the calls left. The round's first request is kept as the first request. |
| Chat.TurnRequests | client.py:166-215 | The first request sends the history plus the user entry and offers the offered tools. A second request is made only after a reply with tool calls, and it offers no tools. Only a tool round can change the agent's fields. |
| Chat.TurnIsAppendOnly | client.py:160-228 | The history before a turn is a prefix of the history after it. |
| Chat.FirstFailureRestoresHistory | client.py:186-228 | If the first request fails, or its reply has no tool calls and no `content`, the history and the agent are exactly as before the turn, and the turn is abandoned after one request. |
| Chat.PlainReplyShape | client.py:216-219 | A reply without tool calls appends exactly the user entry and an assistant entry with that content, and becomes the turn's answer. |
| Chat.TurnToolBranch | client.py:192-194 | A reply with tool calls continues as a tool round. That round starts from the history plus the user entry plus the assistant message that carries the calls. |
| Chat.ToolRoundShape | client.py:192-215 | A tool round keeps the history up to the assistant message. It then appends one tool message per call handled, correlated by id and name in order. At most one entry follows them, and only when the round is answered. |
| Chat.ToolRoundEnds | client.py:207-228 | A round that handled every call and whose follow-up reply has content is answered with that content: the reply is appended after all the tool results, and the requests are the first one and a tool-less one over that history. A failure after the assistant message removes nothing: a stopped round, or a failed or contentless follow-up, leaves exactly the history with every tool result. An answer comes only from a round that handled every call. It is appended after all the tool results, and it was requested over exactly that history, without tools. |
| Chat.ToolRoundKeepsCorrelation | client.py:194-205 | After a tool round, every tool message answers a call issued by an earlier assistant message. |
| Chat.TurnKeepsCorrelation | client.py:160-228 | Every turn keeps that correlation. |
| Chat.Conversation | client.py:160-228 | A sequence of turns never shortens the history. |
| Chat.ConversationInvariant | client.py:158-228 | Over any sequence of turns, the history only grows by appending, keeps its first entry (the system prompt), and keeps every tool message correlated with an earlier call. |
| Chat.ChatSession.constructor | client.py:158 | The history starts as the single system-prompt entry. |
| Chat.ChatSession.DiscardTrailingUser | client.py:223-228 | The history becomes `Rollback` of the old history. |
| Chat.ChatSession.HandleCall | client.py:197-205 | One loop iteration: keeps the history as a prefix, and the history suffix and the agent's fields advance by one `Step`. |
| Chat.ChatSession.RunToolCalls | client.py:196-205 | The history only grows. What it appends, the agent's new fields and the decoding error are exactly `RunCalls` from the old fields. |
| Chat.ChatSession.RequestFinalAnswer | client.py:207-215 | The history, the outcome and the requests are those of `FollowUp` on the old history. |
| Chat.ChatSession.CompleteToolRound | client.py:192-215 | The history, the agent's fields, the outcome and the requests are those of `ToolRound` on the old history and fields. |
| Chat.ChatSession.RunTurn | client.py:166-228 | The history, the agent's fields, the outcome and the requests are those of `Turn`, offering the tools visible for the old fields. |

## Left out

- Tool descriptions and parameter schemas are not modelled. Each descriptor keeps only its name and the names of its required parameters.
- HTTP transport, the completion endpoint, credentials, proxy variables and `test_llm_connection` are left out. A completion request is an oracle `Completion`, and an HTTP status error and any other exception are the same `Failed`.
- Console I/O is left out: the `exit` command, reading the user's line, all printing, and the "Press Enter" pause before login verification. The pause performs nothing that the model observes.
- JSON decoding is left out. Tool-call arguments and the verification object arrive already decoded, or as a decoding error, through the per-call and connect scripts.
- Arguments that decode to something other than an object are not modelled. So are missing `function`/`name`/`id` keys in a tool call.
- A verification whose `userData` is present but not an object is not modelled.
- Chat.Turn, Chat.FollowUp, Chat.ChatSession.RequestFinalAnswer: treat a `content` that is absent and a `content` that is JSON `null` the same, as absent, and abandon the turn. The source raises only on an absent key; a follow-up reply with `content: null` is printed and appended, and the turn ends normally.
- Agent.ExecuteResult: treats a `content` that is `null` the same as an absent one, giving `''`. The source raises a `TypeError` in that case, reported as `Error executing tool: …`.
- Agent.ExecuteResult: treats a content item whose `text` is `null` the same as one without `text`, giving `''`. The source returns `None` as the tool output in that case.
- Agent.ConnectResult: treats a `displayName` that is `null` as absent, giving `Unknown User`. The source answers `… as None.` in that case.
- Agent.ConnectResult: treats a verification `message` that is `null` as absent, giving `No message.`. The source reports `Login verification failed: None` in that case.
- Agent.DisconnectResult: a failure while exiting the client context is not modelled. The source only logs it, and the fields are cleared either way.
- `asyncio`, `main` and the outer `while True` loop are not modelled. Sequences of turns appear only in `Chat.Conversation`, over which `Chat.ConversationInvariant` is proved.
- `test/http-auth-tools.test.ts` tests the server, not this client, and is not part of this model.

=== FILE: agent.dfy ===
/** The agent's session with the Microsoft 365 capability server (class
    M365Agent in client.py): connecting and authenticating, invoking a tool
    and disconnecting. The remote side is an oracle: a `ConnectScript` or a
    `Reply` says what the server answers, and every operation reports the
    remote operations it performed as a list of `RemoteCall`s. */
module Agent {
  import opened Wrappers
  import opened Catalog

  /** An opaque client object: its identity and the client functions
      (attribute names) it exposes. */
  datatype Handle = Handle(id: nat, functions: set<string>)

  /** The agent's two fields: the connected client (`mcp_client`) and the
      client whose context was entered (`_client_context`). */
  datatype Session = Session(client: Option<Handle>, context: Option<Handle>)

  const Disconnected := Session(None, None)

  /** Between operations both fields are set or both are unset. */
  predicate Consistent(s: Session) {
    s.client.Some? <==> s.context.Some?
  }

  /** One element of a result envelope's `content` list. */
  datatype ContentItem = ContentItem(text: Option<string>)

  /** A remote result envelope; `content` is `None` when the key is absent. */
  datatype Envelope = Envelope(content: Option<seq<ContentItem>>)

  /** An exception raised on the remote path, by its kind. */
  datatype PyError = AttributeError(message: string) | OtherError(message: string)

  /** What a remote call does: it raises, or it returns an envelope or `None`. */
  datatype Reply = Raised(error: PyError) | Returned(value: Option<Envelope>)

  /** The decoded verification object: `success`, `userData.displayName`
      and `message`, the last two `None` when the key is absent. */
  datatype Verification = Verification(success: bool, displayName: Option<string>, message: Option<string>)

  /** The server's side of one connection attempt: the client object built
      for the URL, what entering its context yields, the answers of `login`
      and `verify-login`, and the decoding of the verification text (its
      failure message when the text is not a JSON object). */
  datatype ConnectScript = ConnectScript(
    context: Handle,
    entered: Result<Handle, string>,
    login: Reply,
    verify: Reply,
    verification: Result<Verification, string>)

  /** Decoded keyword arguments of a tool call. Argument values are JSON
      values in the source; they are abstracted to strings here, since the
      model only passes them through to the client function. */
  type Args = map<string, string>

  /** A remote operation the agent performs. */
  datatype RemoteCall =
    | Enter(url: string)
    | Login(force: bool)
    | VerifyLogin
    | Invoke(clientFunction: string, args: Args)
    | Exit(context: Handle)

  /** The outcome of `connect_and_authenticate`: the new fields, the returned
      string, and the remote operations performed. */
  datatype Attempt = Attempt(session: Session, message: string, calls: seq<RemoteCall>)

  /** The outcome of `execute_tool`: the returned string and the remote operations. */
  datatype Invocation = Invocation(message: string, calls: seq<RemoteCall>)

  /** The outcome of `disconnect`: the new fields and the remote operations. */
  datatype Release = Release(session: Session, calls: seq<RemoteCall>)

  const AlreadyConnected := "Already connected and authenticated."
  const FailurePrefix := "Failed to connect and authenticate. Error: "
  const NoLoginMessage := "Did not receive the expected login message from the server."
  const NoVerification := "Did not receive a valid verification response from the server."
  /** Every failure of `execute_tool` is a string starting with this mark. */
  const ErrorMark := "Error"
  const NotConnected := ErrorMark + ": Not connected. Please call 'connect_and_authenticate' first."
  const ExecutionPrefix := ErrorMark + " executing tool: "
  const IndexOutOfRange := "list index out of range"

  function SuccessMessage(userName: string): string {
    "Successfully connected and authenticated to Microsoft 365 as " + userName + "."
  }

  function VerificationFailed(v: Verification): string {
    "Login verification failed: " + v.message.GetOr("No message.")
  }

  function NotAvailable(name: string): string {
    ErrorMark + ": The tool '" + name + "' is not available."
  }

  predicate HasPrefix(prefix: string, s: string) {
    |prefix| <= |s| && s[..|prefix|] == prefix
  }

  /** The check made of the login and verify-login answers. A raised
      exception yields its message; an answer that is absent, has no or an
      empty `content`, or whose first element has no or an empty `text`
      yields the message `malformed`; otherwise the check passes. */
  function CheckedText(reply: Reply, malformed: string): (r: Result<string, string>)
    ensures r.Success? ==> reply.Returned? && r.value != ""
    ensures reply.Raised? ==> r == Failure(reply.error.message)
  {
    match reply
    case Raised(e) => Failure(e.message)
    case Returned(v) =>
      if v.Some? && v.value.content.Some? && |v.value.content.value| > 0 then
        var first := v.value.content.value[0];
        if first.text.Some? && first.text.value != "" then Success(first.text.value) else Failure(malformed)
      else Failure(malformed)
  }

  /** The check passes exactly on a returned envelope whose first content
      element carries a non-empty text, and then yields that text. */
  lemma CheckedTextAccepts(reply: Reply, malformed: string)
    ensures var r := CheckedText(reply, malformed);
            r.Success? <==>
              reply.Returned? && reply.value.Some? && reply.value.value.content.Some? &&
              |reply.value.value.content.value| > 0 &&
              reply.value.value.content.value[0].text.Some? && reply.value.value.content.value[0].text.value != ""
    ensures var r := CheckedText(reply, malformed);
            r.Success? ==> r.value == reply.value.value.content.value[0].text.value && r.value != ""
    ensures var r := CheckedText(reply, malformed);
            r.Failure? ==> r.error == if reply.Raised? then reply.error.message else malformed
  {
  }

  /** The script leads to an authenticated session: the context is entered,
      both answers are well formed and the verification reports success. */
  predicate Authenticates(script: ConnectScript) {
    script.entered.Success? &&
    CheckedText(script.login, NoLoginMessage).Success? &&
    CheckedText(script.verify, NoVerification).Success? &&
    script.verification.Success? && script.verification.value.success
  }

  /** The reason a script that does not authenticate gives: that of the
      first step that fails. */
  function FailureReason(script: ConnectScript): string
    requires !Authenticates(script)
  {
    match script.entered
    case Failure(e) => e
    case Success(_) =>
      match CheckedText(script.login, NoLoginMessage)
      case Failure(e) => e
      case Success(_) =>
        match CheckedText(script.verify, NoVerification)
        case Failure(e) => e
        case Success(_) =>
          match script.verification
          case Failure(e) => e
          case Success(v) => VerificationFailed(v)
  }

  /** `disconnect` from the fields `s`. */
  function DisconnectResult(s: Session): (r: Release)
    ensures r.session == Disconnected && |r.calls| <= 1
  {
    Release(Disconnected, if s.context.Some? && s.client.Some? then [Exit(s.context.value)] else [])
  }

  /** `disconnect` always clears both fields, and exits the context, once,
      exactly when both fields were set. */
  lemma DisconnectContract(s: Session)
    ensures DisconnectResult(s).session == Disconnected
    ensures DisconnectResult(s).calls != [] <==> s.client.Some? && s.context.Some?
    ensures forall c :: c in DisconnectResult(s).calls ==> c == Exit(s.context.value)
    ensures |DisconnectResult(s).calls| <= 1
  {
  }

  /** The failure path of `connect_and_authenticate`: disconnect, then report
      the reason after the fixed prefix. */
  function Abandon(s: Session, calls: seq<RemoteCall>, reason: string): Attempt {
    var released := DisconnectResult(s);
    Attempt(released.session, FailurePrefix + reason, calls + released.calls)
  }

  /** `connect_and_authenticate` from the fields `s` against the server `script`. */
  function ConnectResult(s: Session, url: string, script: ConnectScript): (r: Attempt)
    // a failed attempt always leaves both fields unset
    ensures r.session.client.None? ==> r.session == Disconnected
    ensures s.client.None? ==> |r.calls| > 0 && r.calls[0] == Enter(url)
  {
    if s.client.Some? then Attempt(s, AlreadyConnected, [])
    else
      var entering := [Enter(url)];
      match script.entered
      case Failure(e) => Abandon(Session(None, Some(script.context)), entering, e)
      case Success(h) =>
        var entered := Session(Some(h), Some(script.context));
        var afterLogin := entering + [Login(true)];
        match CheckedText(script.login, NoLoginMessage)
        case Failure(e) => Abandon(entered, afterLogin, e)
        case Success(_) =>
          var afterVerify := afterLogin + [VerifyLogin];
          match CheckedText(script.verify, NoVerification)
          case Failure(e) => Abandon(entered, afterVerify, e)
          case Success(_) =>
            match script.verification
            case Failure(e) => Abandon(entered, afterVerify, e)
            case Success(v) =>
              if v.success then Attempt(entered, SuccessMessage(v.displayName.GetOr("Unknown User")), afterVerify)
              else Abandon(entered, afterVerify, VerificationFailed(v))
  }

  /** `connect_and_authenticate` is idempotent when connected: it returns the
      fixed answer, keeps the fields and performs no remote operation. */
  lemma ConnectWhenConnected(s: Session, url: string, script: ConnectScript)
    requires s.client.Some?
    ensures ConnectResult(s, url, script) == Attempt(s, AlreadyConnected, [])
  {
  }

  /** From a disconnected agent, `connect_and_authenticate` first opens the
      client for the URL; it ends connected exactly when the script
      authenticates, with the user's display name (default "Unknown User")
      in the answer; otherwise it ends disconnected with the failure prefix
      and the first failing step's reason. Login is attempted only once the
      context is entered, and the context is exited only after a failure
      that followed a successful entry. */
  lemma ConnectWhenDisconnected(s: Session, url: string, script: ConnectScript)
    requires s.client.None?
    ensures var r := ConnectResult(s, url, script);
            |r.calls| > 0 && r.calls[0] == Enter(url) &&
            (r.session.client.Some? <==> Authenticates(script))
    ensures var r := ConnectResult(s, url, script);
            Authenticates(script) ==>
              r.session == Session(Some(script.entered.value), Some(script.context)) &&
              r.message == SuccessMessage(script.verification.value.displayName.GetOr("Unknown User"))
    ensures var r := ConnectResult(s, url, script);
            !Authenticates(script) ==>
              r.session == Disconnected && r.message == FailurePrefix + FailureReason(script) &&
              HasPrefix(FailurePrefix, r.message)
    ensures var r := ConnectResult(s, url, script);
            (Login(true) in r.calls <==> script.entered.Success?) &&
            (Exit(script.context) in r.calls <==> script.entered.Success? && !Authenticates(script))
    ensures Authenticates(script) ==> ConnectResult(s, url, script).calls == [Enter(url), Login(true), VerifyLogin]
  {
    var r := ConnectResult(s, url, script);
    if !Authenticates(script) {
      assert (FailurePrefix + FailureReason(script))[..|FailurePrefix|] == FailurePrefix;
    }
    if script.entered.Success? {
      assert r.calls[1] == Login(true);
    }
  }

  /** The remote answer reached `execute_tool`'s return: an envelope was
      returned, and its `content` is absent or non-empty. */
  predicate Executes(s: Session, name: string, reply: Reply) {
    s.client.Some? && Underscored(name) in s.client.value.functions &&
    reply.Returned? && reply.value.Some? &&
    (reply.value.value.content.None? || |reply.value.value.content.value| > 0)
  }

  /** The text a returned envelope delivers: the first content element's
      `text`, or the empty string when the content or the text is absent. */
  predicate Delivers(env: Envelope, text: string) {
    match env.content
    case None => text == ""
    case Some(items) => |items| > 0 && text == items[0].text.GetOr("")
  }

  /** From a disconnected agent, an attempt that fails reports, after the
      failure prefix, the reason of the first step that fails, and the
      remote operations stop at that step: the context is exited only when
      it was entered. A raised exception's message is the reason; a
      malformed login or verify-login answer gives the fixed "did not
      receive" reason; an unsuccessful verification gives the server's
      message (default "No message."). */
  lemma ConnectFailureSteps(s: Session, url: string, script: ConnectScript)
    requires s.client.None?
    ensures var r := ConnectResult(s, url, script);
            script.entered.Failure? ==>
              r == Attempt(Disconnected, FailurePrefix + script.entered.error, [Enter(url)])
    ensures var r := ConnectResult(s, url, script);
            script.entered.Success? && script.login.Raised? ==>
              r == Attempt(Disconnected, FailurePrefix + script.login.error.message,
                           [Enter(url), Login(true), Exit(script.context)])
    ensures var r := ConnectResult(s, url, script);
            script.entered.Success? && script.login.Returned? && CheckedText(script.login, NoLoginMessage).Failure? ==>
              r == Attempt(Disconnected, FailurePrefix + NoLoginMessage, [Enter(url), Login(true), Exit(script.context)])
    ensures var r, afterVerify := ConnectResult(s, url, script), [Enter(url), Login(true), VerifyLogin, Exit(script.context)];
            script.entered.Success? && CheckedText(script.login, NoLoginMessage).Success? ==>
              (script.verify.Raised? ==>
                 r == Attempt(Disconnected, FailurePrefix + script.verify.error.message, afterVerify)) &&
              (script.verify.Returned? && CheckedText(script.verify, NoVerification).Failure? ==>
                 r == Attempt(Disconnected, FailurePrefix + NoVerification, afterVerify))
    ensures var r, afterVerify := ConnectResult(s, url, script), [Enter(url), Login(true), VerifyLogin, Exit(script.context)];
            script.entered.Success? && CheckedText(script.login, NoLoginMessage).Success? &&
            CheckedText(script.verify, NoVerification).Success? ==>
              (script.verification.Failure? ==>
                 r == Attempt(Disconnected, FailurePrefix + script.verification.error, afterVerify)) &&
              (script.verification.Success? && !script.verification.value.success ==>
                 r == Attempt(Disconnected,
                              FailurePrefix + "Login verification failed: " + script.verification.value.message.GetOr("No message."),
                              afterVerify))
  {
    if script.entered.Success? && script.login.Returned? {
      CheckedTextAccepts(script.login, NoLoginMessage);
    }
    if script.entered.Success? && script.verify.Returned? {
      CheckedTextAccepts(script.verify, NoVerification);
    }
  }

  /** `execute_tool(name, args)` on the fields `s`; `reply` is what the
      client function does when it is called. */
  function ExecuteResult(s: Session, name: string, args: Args, reply: Reply): (r: Invocation)
    ensures |r.calls| <= 1
    ensures s.client.None? ==> r == Invocation(NotConnected, [])
  {
    if s.client.None? then Invocation(NotConnected, [])
    else
      var clientFunction := Underscored(name);
      if clientFunction !in s.client.value.functions then Invocation(NotAvailable(name), [])
      else
        var calls := [Invoke(clientFunction, args)];
        match reply
        case Raised(AttributeError(_)) => Invocation(NotAvailable(name), calls)
        case Raised(OtherError(e)) => Invocation(ExecutionPrefix + e, calls)
        case Returned(None) => Invocation(NotAvailable(name), calls)
        case Returned(Some(env)) =>
          match env.content
          case None => Invocation("", calls)
          case Some(items) =>
            if items == [] then Invocation(ExecutionPrefix + IndexOutOfRange, calls)
            else Invocation(items[0].text.GetOr(""), calls)
  }

  /** `execute_tool` refuses without a remote operation while disconnected;
      its only remote operation is the client function named with `_` for
      `-`, made exactly when the client exposes it; an unknown name and a
      raised AttributeError give "not available", any other exception is
      reported with its message; a success delivers the remote text and
      every failure is a string marked as an error. */
  lemma ExecuteContract(s: Session, name: string, args: Args, reply: Reply)
    ensures var r := ExecuteResult(s, name, args, reply);
            s.client.None? ==> r == Invocation(NotConnected, [])
    ensures var r := ExecuteResult(s, name, args, reply);
            (r.calls != [] <==> s.client.Some? && Underscored(name) in s.client.value.functions) &&
            (r.calls != [] ==> r.calls == [Invoke(Underscored(name), args)] && '-' !in r.calls[0].clientFunction)
    ensures var r := ExecuteResult(s, name, args, reply);
            s.client.Some? && Underscored(name) !in s.client.value.functions ==> r.message == NotAvailable(name)
    ensures var r := ExecuteResult(s, name, args, reply);
            r.calls != [] && reply.Raised? ==>
              r.message == if reply.error.AttributeError? then NotAvailable(name) else ExecutionPrefix + reply.error.message
    ensures var r := ExecuteResult(s, name, args, reply);
            (Executes(s, name, reply) ==> Delivers(reply.value.value, r.message)) &&
            (!Executes(s, name, reply) ==> HasPrefix(ErrorMark, r.message))
    // a returned `None` fails on `.get` with an AttributeError; an empty content list fails on `[0]`
    ensures var r := ExecuteResult(s, name, args, reply);
            r.calls != [] && reply == Returned(None) ==> r.message == NotAvailable(name)
    ensures var r := ExecuteResult(s, name, args, reply);
            r.calls != [] && reply.Returned? && reply.value.Some? && reply.value.value.content == Some([]) ==>
              r.message == ExecutionPrefix + IndexOutOfRange
  {
    UnderscoredIsNormal(name);
  }

  /** Every operation keeps both fields set or both unset. */
  lemma OperationsKeepConsistent(s: Session, url: string, script: ConnectScript)
    requires Consistent(s)
    ensures Consistent(ConnectResult(s, url, script).session)
    ensures Consistent(DisconnectResult(s).session)
  {
    if s.client.None? {
      ConnectWhenDisconnected(s, url, script);
    }
  }

  /** A second `connect_and_authenticate` right after a successful one
      returns the fixed answer and performs no remote operation; a second
      `disconnect` performs none either. */
  lemma RepeatedCallsAreHarmless(s: Session, url: string, script: ConnectScript, again: ConnectScript)
    requires s.client.None? && Authenticates(script)
    ensures var first := ConnectResult(s, url, script);
            ConnectResult(first.session, url, again) == Attempt(first.session, AlreadyConnected, [])
    ensures DisconnectResult(DisconnectResult(s).session).calls == []
  {
    ConnectWhenDisconnected(s, url, script);
  }

  class M365Agent {
    const serverUrl: string
    var mcpClient: Option<Handle>
    var clientContext: Option<Handle>

    function State(): Session
      reads this
    {
      Session(mcpClient, clientContext)
    }

    constructor (serverUrl: string)
      ensures this.serverUrl == serverUrl && State() == Disconnected
    {
      this.serverUrl := serverUrl;
      mcpClient := None;
      clientContext := None;
    }

    method ConnectAndAuthenticate(script: ConnectScript) returns (message: string, calls: seq<RemoteCall>)
      modifies this
      ensures Attempt(State(), message, calls) == ConnectResult(old(State()), serverUrl, script)
    {
      if mcpClient.Some? {
        return AlreadyConnected, [];
      }
      var reason: string;
      clientContext := Some(script.context);
      calls := [Enter(serverUrl)];
      match script.entered {
        case Failure(e) =>
          reason := e;
        case Success(h) =>
          mcpClient := Some(h);
          calls := calls + [Login(true)];
          var login := CheckedText(script.login, NoLoginMessage);
          if login.Failure? {
            reason := login.error;
          } else {
            calls := calls + [VerifyLogin];
            var verify := CheckedText(script.verify, NoVerification);
            if verify.Failure? {
              reason := verify.error;
            } else if script.verification.Failure? {
              reason := script.verification.error;
            } else if script.verification.value.success {
              return SuccessMessage(script.verification.value.displayName.GetOr("Unknown User")), calls;
            } else {
              reason := VerificationFailed(script.verification.value);
            }
          }
      }
      var released := Disconnect();
      message := FailurePrefix + reason;
      calls := calls + released;
    }

    method ExecuteTool(name: string, args: Args, reply: Reply) returns (message: string, calls: seq<RemoteCall>)
      ensures Invocation(message, calls) == ExecuteResult(State(), name, args, reply)
    {
      if mcpClient.None? {
        return NotConnected, [];
      }
      var clientFunction := Underscored(name);
      if clientFunction !in mcpClient.value.functions {
        return NotAvailable(name), [];
      }
      calls := [Invoke(clientFunction, args)];
      match reply
      case Raised(AttributeError(_)) =>
        message := NotAvailable(name);
      case Raised(OtherError(e)) =>
        message := ExecutionPrefix + e;
      case Returned(None) =>
        message := NotAvailable(name);
      case Returned(Some(env)) =>
        if env.content.None? {
          message := "";
        } else if env.content.value == [] {
          message := ExecutionPrefix + IndexOutOfRange;
        } else {
          message := env.content.value[0].text.GetOr("");
        }
    }

    method Disconnect() returns (calls: seq<RemoteCall>)
      modifies this
      ensures Release(State(), calls) == DisconnectResult(old(State()))
    {
      calls := [];
      if clientContext.Some? && mcpClient.Some? {
        calls := [Exit(clientContext.value)];
      }
      mcpClient := None;
      clientContext := None;
    }
  }
}

=== FILE: catalog.dfy ===
/** The tool descriptors offered to the language model, and the mapping from
    a tool's name to the client function that invokes it (client.py). */
module Catalog {
  import opened Wrappers

  /** A tool descriptor; the JSON schema of its parameters is reduced to the
      names of the required ones (`None` when the descriptor has no
      `parameters` entry at all). */
  datatype ToolDescriptor = ToolDescriptor(name: string, required: Option<seq<string>>)

  const BootstrapName := "connect_and_authenticate"

  /** The single descriptor offered while no client is connected. */
  function BootstrapTool(): (t: ToolDescriptor)
    ensures t.name == BootstrapName && t.required == Some([])
  {
    ToolDescriptor(BootstrapName, Some([]))
  }

  function Names(tools: seq<ToolDescriptor>): (names: seq<string>)
    ensures |names| == |tools|
    ensures forall i :: 0 <= i < |tools| ==> names[i] == tools[i].name
  {
    if tools == [] then [] else [tools[0].name] + Names(tools[1..])
  }

  /** The names of the Microsoft 365 tools, in the order they are offered. */
  const M365ToolNames: seq<string> :=
    ["list-mail-messages", "list-mail-folders", "list-mail-folder-messages",
     "get-mail-message", "send-mail", "create-calendar-event", "get-current-user"]

  /** The static list of the Microsoft 365 tools, in their fixed order. */
  function M365Tools(): (tools: seq<ToolDescriptor>)
    ensures |tools| == 7
    ensures Names(tools) == M365ToolNames
  {
    [ ToolDescriptor("list-mail-messages", None),
      ToolDescriptor("list-mail-folders", None),
      ToolDescriptor("list-mail-folder-messages", Some(["mailFolder_id"])),
      ToolDescriptor("get-mail-message", Some(["message_id"])),
      ToolDescriptor("send-mail", Some(["Message"])),
      ToolDescriptor("create-calendar-event", Some(["subject", "start", "end"])),
      ToolDescriptor("get-current-user", None) ]
  }

  /** The tools offered in a turn's first request: the bootstrap descriptor
      alone while disconnected, the whole static list once connected. */
  function VisibleTools(connected: bool): (tools: seq<ToolDescriptor>)
    ensures |tools| == if connected then 7 else 1
    ensures BootstrapName in Names(tools) <==> !connected
    ensures connected ==> tools == M365Tools()
    ensures !connected ==> tools[0] == BootstrapTool()
  {
    if connected then M365Tools() else [BootstrapTool()]
  }

  /** The client function name for a tool name: every `-` becomes `_`. */
  function Underscored(name: string): (fn: string)
    ensures |fn| == |name|
    ensures forall i :: 0 <= i < |name| ==> fn[i] == if name[i] == '-' then '_' else name[i]
  {
    if name == [] then []
    else [if name[0] == '-' then '_' else name[0]] + Underscored(name[1..])
  }

  /** A client function name never contains `-`, and mapping it again changes nothing. */
  lemma UnderscoredIsNormal(name: string)
    ensures '-' !in Underscored(name)
    ensures Underscored(Underscored(name)) == Underscored(name)
  {
    var fn := Underscored(name);
    forall i | 0 <= i < |fn| ensures fn[i] != '-' { }
  }

  /** On names without `_` the mapping is injective: two distinct such tool
      names never reach the same client function. */
  lemma UnderscoredInjective(a: string, b: string)
    requires '_' !in a && '_' !in b
    requires Underscored(a) == Underscored(b)
    ensures a == b
  {
    forall i | 0 <= i < |a| ensures a[i] == b[i] {
      assert a[i] in a && b[i] in b;
    }
  }

  /** Tool names that are pairwise distinct and free of `_` dispatch to
      pairwise distinct client functions. */
  lemma DistinctDispatch(names: seq<string>)
    requires forall i :: 0 <= i < |names| ==> '_' !in names[i]
    requires forall i, j :: 0 <= i < j < |names| ==> names[i] != names[j]
    ensures forall i, j :: 0 <= i < j < |names| ==> Underscored(names[i]) != Underscored(names[j])
  {
    forall i, j | 0 <= i < j < |names| ensures Underscored(names[i]) != Underscored(names[j]) {
      if Underscored(names[i]) == Underscored(names[j]) {
        UnderscoredInjective(names[i], names[j]);
      }
    }
  }

  /** The seven static tools dispatch to seven distinct client functions, none
      of which is the bootstrap name. */
  lemma M365ToolsDispatchDistinct()
    ensures forall i, j :: 0 <= i < j < 7 ==>
      Underscored(M365ToolNames[i]) != Underscored(M365ToolNames[j])
    ensures BootstrapName !in M365ToolNames
  {
    var names := M365ToolNames;
    assert forall i :: 0 <= i < |names| ==> '_' !in names[i];
    assert forall i, j :: 0 <= i < j < |names| ==> names[i] != names[j];
    DistinctDispatch(names);
  }
}

=== FILE: chat.dfy ===
/** One turn of the chat loop (chat_loop in client.py): the conversation
    history, the two completion requests, the tool-call round and the
    rollback on failure. The language model is an oracle: a `Completion`
    says what each request returned, and a `CallScript` says how each tool
    call's arguments decode and what the server answers it. */
module Chat {
  import opened Wrappers
  import opened Catalog
  import opened Agent

  const SystemPrompt :=
    "\nYou are a helpful assistant that can connect to Microsoft 365.\n" +
    "You must first call the 'connect_and_authenticate' tool.\n" +
    "Once connected, you can use other Microsoft 365 tools to help the user.\n" +
    "Always inform the user about the steps you are taking.\n"

  /** A tool call emitted by the model: its correlation id, the tool name
      and the JSON text of its arguments. */
  datatype ToolCall = ToolCall(id: string, name: string, arguments: string)

  /** An entry of the conversation history, by role. An assistant entry
      keeps the model's message as returned: its `content` (`None` when the
      key is absent) and its tool calls. */
  datatype Message =
    | System(text: string)
    | User(text: string)
    | Assistant(content: Option<string>, toolCalls: seq<ToolCall>)
    | Tool(toolCallId: string, name: string, output: string)

  /** A request to the completion endpoint: the messages sent and the tools
      offered (`None` when the request carries neither `tools` nor
      `tool_choice`; otherwise `tool_choice` is `auto`). */
  datatype Request = Request(messages: seq<Message>, tools: Option<seq<ToolDescriptor>>)

  /** What a completion request yields: a failure (transport error, HTTP
      error status, or a body without a first choice), or the first choice's
      message. */
  datatype Completion =
    | Failed(error: string)
    | Responded(content: Option<string>, toolCalls: seq<ToolCall>)

  /** How one tool call plays out: the decoding of its arguments, and the
      server's answers should it connect or invoke a tool. */
  datatype CallScript = CallScript(args: Result<Args, string>, connect: ConnectScript, reply: Reply)

  /** How a turn ends: with the answer shown to the user, or abandoned with
      the error reported. */
  datatype TurnOutcome = Answered(text: string) | Abandoned(error: string)

  /** The state of the tool-call round: the agent's fields, the tool
      messages appended so far, and the error that stopped the round. */
  datatype Progress = Progress(session: Session, messages: seq<Message>, error: Option<string>)

  /** Everything a turn produces. */
  datatype TurnResult = TurnResult(history: seq<Message>, session: Session, requests: seq<Request>, outcome: TurnOutcome)

  /** The message of the `KeyError` raised when a reply has no `content`. */
  const MissingContent := "'content'"

  /** How the agent handles one tool call with decoded arguments: the new
      agent fields and the tool message's content. */
  type Dispatcher = (Session, ToolCall, Args, CallScript) -> (Session, string)

  /** One tool call dispatched by the agent serving `url`: the bootstrap
      name goes to `connect_and_authenticate`, every other name to
      `execute_tool`. */
  function Dispatch(s: Session, url: string, call: ToolCall, args: Args, sc: CallScript): (r: (Session, string))
    ensures call.name == BootstrapName ==>
              r == (ConnectResult(s, url, sc.connect).session, ConnectResult(s, url, sc.connect).message)
    ensures call.name != BootstrapName ==> r.0 == s && r.1 == ExecuteResult(s, call.name, args, sc.reply).message
  {
    if call.name == BootstrapName then
      var attempt := ConnectResult(s, url, sc.connect);
      (attempt.session, attempt.message)
    else
      (s, ExecuteResult(s, call.name, args, sc.reply).message)
  }

  function AgentDispatch(url: string): Dispatcher {
    (s, call, args, sc) => Dispatch(s, url, call, args, sc)
  }

  /** One iteration of the tool-call loop. Arguments that do not decode
      raise, which ends the round; otherwise the call's output is appended
      as a tool message carrying the call's id and name. */
  function Step(p: Progress, dispatch: Dispatcher, call: ToolCall, sc: CallScript): (r: Progress)
    // a stopped round stays as it is
    ensures p.error.Some? ==> r == p
    // otherwise the call adds its tool message, or stops the round with the decoding error
    ensures p.error.None? ==>
              if sc.args.Success? then
                r.error.None? && |r.messages| == |p.messages| + 1 && r.messages[..|p.messages|] == p.messages &&
                r.messages[|p.messages|].Tool? && r.messages[|p.messages|].toolCallId == call.id &&
                r.messages[|p.messages|].name == call.name
              else r == Progress(p.session, p.messages, Some(sc.args.error))
  {
    if p.error.Some? then p
    else
      match sc.args
      case Failure(e) => Progress(p.session, p.messages, Some(e))
      case Success(args) =>
        var (session, output) := dispatch(p.session, call, args, sc);
        Progress(session, p.messages + [Tool(call.id, call.name, output)], None)
  }

  /** The tool-call round over `calls` in the order the model emitted them;
      the call at position `k` plays out as `script(k)`. */
  function RunCalls(s: Session, dispatch: Dispatcher, calls: seq<ToolCall>, script: nat -> CallScript): (p: Progress)
    // one tool message per call handled, in order, correlated by id and name
    ensures |p.messages| <= |calls|
    ensures forall i :: 0 <= i < |p.messages| ==>
      p.messages[i].Tool? && p.messages[i].toolCallId == calls[i].id && p.messages[i].name == calls[i].name
    // the round either handles every call or stops at the first whose arguments do not decode
    ensures p.error.None? ==> |p.messages| == |calls|
    ensures p.error.Some? ==> |p.messages| < |calls| && script(|p.messages|).args == Failure(p.error.value)
    // every call that got a tool message had arguments that decode, so a stop is at the first call that does not
    ensures forall j :: 0 <= j < |p.messages| ==> script(j).args.Success?
    decreases |calls|
  {
    if calls == [] then Progress(s, [], None)
    else Step(RunCalls(s, dispatch, calls[..|calls| - 1], script), dispatch, calls[|calls| - 1], script(|calls| - 1))
  }

  /** Running one more call of `calls` is one more `Step`. */
  lemma RunCallsExtend(s: Session, dispatch: Dispatcher, calls: seq<ToolCall>, script: nat -> CallScript, k: nat)
    requires k < |calls|
    ensures RunCalls(s, dispatch, calls[..k + 1], script) ==
            Step(RunCalls(s, dispatch, calls[..k], script), dispatch, calls[k], script(k))
  {
    assert calls[..k + 1][..k] == calls[..k];
  }

  /** Once the round has stopped, the remaining calls change nothing. */
  lemma {:induction false} StoppedRoundStaysStopped(s: Session, dispatch: Dispatcher, calls: seq<ToolCall>, script: nat -> CallScript, k: nat)
    requires k <= |calls|
    requires RunCalls(s, dispatch, calls[..k], script).error.Some?
    ensures RunCalls(s, dispatch, calls, script) == RunCalls(s, dispatch, calls[..k], script)
    decreases |calls|
  {
    if k < |calls| {
      var prefix := calls[..|calls| - 1];
      assert prefix[..k] == calls[..k];
      StoppedRoundStaysStopped(s, dispatch, prefix, script, k);
    } else {
      assert calls[..k] == calls;
    }
  }

  /** A completed round's first `k` calls form a completed round of their
      own, whose tool messages are the first `k` of the whole round's. */
  lemma {:induction false} RunCallsPrefix(s: Session, dispatch: Dispatcher, calls: seq<ToolCall>, script: nat -> CallScript, k: nat)
    requires k <= |calls|
    requires RunCalls(s, dispatch, calls, script).error.None?
    ensures RunCalls(s, dispatch, calls[..k], script).error.None?
    ensures RunCalls(s, dispatch, calls[..k], script).messages == RunCalls(s, dispatch, calls, script).messages[..k]
    decreases |calls|
  {
    if k == |calls| {
      assert calls[..k] == calls;
    } else {
      var prefix := calls[..|calls| - 1];
      assert prefix[..k] == calls[..k];
      CompletedRoundDropLast(s, dispatch, prefix, calls, script);
      RunCallsPrefix(s, dispatch, prefix, script, k);
    }
  }

  /** If the round over `calls` completes, the round without its last call
      also completes, and its tool messages are the first ones of the whole
      round. */
  lemma CompletedRoundDropLast(s: Session, dispatch: Dispatcher, prefix: seq<ToolCall>, calls: seq<ToolCall>, script: nat -> CallScript)
    requires |calls| > 0 && prefix == calls[..|calls| - 1]
    requires RunCalls(s, dispatch, calls, script).error.None?
    ensures RunCalls(s, dispatch, prefix, script).error.None?
    ensures RunCalls(s, dispatch, prefix, script).messages == RunCalls(s, dispatch, calls, script).messages[..|prefix|]
  {
    var p := RunCalls(s, dispatch, prefix, script);
    var q := RunCalls(s, dispatch, calls, script);
    assert q == Step(p, dispatch, calls[|calls| - 1], script(|calls| - 1));
    assert q.messages[..|p.messages|] == p.messages;
  }

  /** In a completed round, call `i` is dispatched on the session the calls
      before it left, with its decoded arguments; its tool message carries
      what the agent answered, and the session it leaves is the one the next
      call sees. */
  lemma RunCallsOutputs(s: Session, dispatch: Dispatcher, calls: seq<ToolCall>, script: nat -> CallScript, i: nat)
    requires i < |calls|
    requires RunCalls(s, dispatch, calls, script).error.None?
    ensures script(i).args.Success?
    ensures var before := RunCalls(s, dispatch, calls[..i], script).session;
            var answer := dispatch(before, calls[i], script(i).args.value, script(i));
            RunCalls(s, dispatch, calls, script).messages[i] == Tool(calls[i].id, calls[i].name, answer.1) &&
            RunCalls(s, dispatch, calls[..i + 1], script).session == answer.0
  {
    RunCallsPrefix(s, dispatch, calls, script, i + 1);
    var upTo := calls[..i + 1];
    assert upTo[..i] == calls[..i];
    var p := RunCalls(s, dispatch, calls[..i], script);
    assert RunCalls(s, dispatch, upTo, script) == Step(p, dispatch, calls[i], script(i));
    assert RunCalls(s, dispatch, calls, script).messages[..i + 1][i] == RunCalls(s, dispatch, calls, script).messages[i];
  }

  /** A `connect_and_authenticate` call that authenticates from a
      disconnected agent reports the user's display name to the model, and
      the call after it in the same batch runs on the connected agent. */
  lemma ConnectInRoundServesLaterCalls(s: Session, url: string, calls: seq<ToolCall>, script: nat -> CallScript, i: nat)
    requires i + 1 < |calls|
    requires RunCalls(s, AgentDispatch(url), calls, script).error.None?
    requires calls[i].name == BootstrapName && calls[i + 1].name != BootstrapName
    requires RunCalls(s, AgentDispatch(url), calls[..i], script).session.client.None?
    requires Authenticates(script(i).connect)
    ensures var p := RunCalls(s, AgentDispatch(url), calls, script);
            var v := script(i).connect.verification.value;
            p.messages[i].output == SuccessMessage(v.displayName.GetOr("Unknown User"))
    ensures var connected := RunCalls(s, AgentDispatch(url), calls[..i + 1], script).session;
            connected.client.Some? && script(i + 1).args.Success? &&
            RunCalls(s, AgentDispatch(url), calls, script).messages[i + 1].output ==
              ExecuteResult(connected, calls[i + 1].name, script(i + 1).args.value, script(i + 1).reply).message
  {
    var before := RunCalls(s, AgentDispatch(url), calls[..i], script).session;
    RunCallsOutputs(s, AgentDispatch(url), calls, script, i);
    RunCallsOutputs(s, AgentDispatch(url), calls, script, i + 1);
    ConnectWhenDisconnected(before, url, script(i).connect);
  }

  /** The exception handler's rollback: the last entry is removed exactly
      when it is a user entry. */
  function Rollback(h: seq<Message>): (r: seq<Message>)
    ensures |r| <= |h| && r == h[..|r|]
    ensures |r| < |h| <==> |h| > 0 && h[|h| - 1].User?
    ensures |h| - 1 <= |r|
  {
    if |h| > 0 && h[|h| - 1].User? then h[..|h| - 1] else h
  }

  /** What the follow-up request leaves: the history, the requests made in
      the turn and the turn's outcome. */
  datatype Closing = Closing(history: seq<Message>, requests: seq<Request>, outcome: TurnOutcome)

  /** The end of a completed tool round: the follow-up request sends the
      extended history without tools, and its reply is appended as returned. */
  function FollowUp(withResults: seq<Message>, request: Request, second: Completion): (r: Closing)
    ensures r.requests == [request, Request(withResults, None)]
    // a reply with content is the turn's answer
    ensures second.Responded? && second.content.Some? ==> r.outcome == Answered(second.content.value)
    // an answer is appended after the tool results
    ensures r.outcome.Answered? ==>
              second.Responded? && second.content.Some? && r.outcome == Answered(second.content.value) &&
              r.history == withResults + [Assistant(second.content, second.toolCalls)]
    // a failure after the assistant message removes nothing
    ensures |withResults| > 0 && !withResults[|withResults| - 1].User? && r.outcome.Abandoned? ==>
              r.history == withResults
  {
    var followUp := Request(withResults, None);
    match second
    case Failed(e) => Closing(Rollback(withResults), [request, followUp], Abandoned(e))
    case Responded(final, finalCalls) =>
      if final.None? then
        Closing(Rollback(withResults), [request, followUp], Abandoned(MissingContent))
      else
        Closing(withResults + [Assistant(final, finalCalls)], [request, followUp], Answered(final.value))
  }

  /** One turn with user input `userInput` from history `h` and agent
      fields `s`; `first` and `second` are what the two completion requests
      yield. */
  function Turn(h: seq<Message>, s: Session, dispatch: Dispatcher, userInput: string, offered: seq<ToolDescriptor>,
                first: Completion, second: Completion, script: nat -> CallScript): (r: TurnResult)
    ensures |r.requests| >= 1 && r.requests[0] == Request(h + [User(userInput)], Some(offered))
  {
    var withUser := h + [User(userInput)];
    var request := Request(withUser, Some(offered));
    match first
    case Failed(e) => TurnResult(Rollback(withUser), s, [request], Abandoned(e))
    case Responded(content, calls) =>
      if calls == [] then
        if content.None? then TurnResult(Rollback(withUser), s, [request], Abandoned(MissingContent))
        else TurnResult(withUser + [Assistant(content, [])], s, [request], Answered(content.value))
      else
        ToolRound(withUser + [Assistant(content, calls)], s, dispatch, request, calls, second, script)
  }

  /** The tool branch of a turn, from the history `withCalls` that ends with
      the assistant message carrying `calls`: run the calls, then either
      roll back on a stopped round or request the final answer. */
  function ToolRound(withCalls: seq<Message>, s: Session, dispatch: Dispatcher, request: Request,
                     calls: seq<ToolCall>, second: Completion, script: nat -> CallScript): (r: TurnResult)
    ensures r.session == RunCalls(s, dispatch, calls, script).session
    ensures |r.requests| >= 1 && r.requests[0] == request
  {
    var p := RunCalls(s, dispatch, calls, script);
    var withResults := withCalls + p.messages;
    if p.error.Some? then TurnResult(Rollback(withResults), p.session, [request], Abandoned(p.error.value))
    else
      var closing := FollowUp(withResults, request, second);
      TurnResult(closing.history, p.session, closing.requests, closing.outcome)
  }

  /** The requests a turn makes: the first sends the history with the user
      entry and offers the offered tools; a follow-up is made only after a
      tool round and offers no tools. The agent is touched only by a tool
      round. */
  lemma TurnRequests(h: seq<Message>, s: Session, dispatch: Dispatcher, userInput: string, offered: seq<ToolDescriptor>,
                     first: Completion, second: Completion, script: nat -> CallScript)
    ensures var r := Turn(h, s, dispatch, userInput, offered, first, second, script);
            1 <= |r.requests| <= 2 && r.requests[0] == Request(h + [User(userInput)], Some(offered)) &&
            (|r.requests| == 2 ==> first.Responded? && first.toolCalls != [] && r.requests[1].tools.None?) &&
            (!(first.Responded? && first.toolCalls != []) ==> r.session == s)
  {
  }

  /** A turn never removes or rewrites an entry that was there before it:
      the history before the turn is a prefix of the history after it. */
  lemma TurnIsAppendOnly(h: seq<Message>, s: Session, dispatch: Dispatcher, userInput: string, offered: seq<ToolDescriptor>,
                         first: Completion, second: Completion, script: nat -> CallScript)
    ensures var r := Turn(h, s, dispatch, userInput, offered, first, second, script);
            |h| <= |r.history| && r.history[..|h|] == h
  {
    var withUser := h + [User(userInput)];
    assert withUser[..|h|] == h;
    if first.Responded? && first.toolCalls != [] {
      var p := RunCalls(s, dispatch, first.toolCalls, script);
      var withResults := withUser + [Assistant(first.content, first.toolCalls)] + p.messages;
      assert withResults[..|h|] == h;
    }
  }

  /** When the first request fails, or its reply has neither tool calls nor
      content, the history and the agent are exactly as before the turn. */
  lemma FirstFailureRestoresHistory(h: seq<Message>, s: Session, dispatch: Dispatcher, userInput: string, offered: seq<ToolDescriptor>,
                                    first: Completion, second: Completion, script: nat -> CallScript)
    requires first.Failed? || (first.toolCalls == [] && first.content.None?)
    ensures var r := Turn(h, s, dispatch, userInput, offered, first, second, script);
            r.history == h && r.session == s && r.outcome.Abandoned? && |r.requests| == 1
  {
    assert (h + [User(userInput)])[..|h|] == h;
  }

  /** A reply without tool calls appends exactly the user entry and the
      assistant's content, and is the turn's answer. */
  lemma PlainReplyShape(h: seq<Message>, s: Session, dispatch: Dispatcher, userInput: string, offered: seq<ToolDescriptor>,
                        first: Completion, second: Completion, script: nat -> CallScript)
    requires first.Responded? && first.toolCalls == [] && first.content.Some?
    ensures var r := Turn(h, s, dispatch, userInput, offered, first, second, script);
            r.history == h + [User(userInput), Assistant(first.content, [])] &&
            r.outcome == Answered(first.content.value) && r.session == s
  {
  }

  /** A reply with tool calls continues the turn as a tool round over the
      history extended by the user entry and the assistant message carrying
      the calls. */
  lemma TurnToolBranch(h: seq<Message>, s: Session, dispatch: Dispatcher, userInput: string, offered: seq<ToolDescriptor>,
                       first: Completion, second: Completion, script: nat -> CallScript)
    requires first.Responded? && first.toolCalls != []
    ensures Turn(h, s, dispatch, userInput, offered, first, second, script) ==
            ToolRound(h + [User(userInput), Assistant(first.content, first.toolCalls)], s, dispatch,
                      Request(h + [User(userInput)], Some(offered)), first.toolCalls, second, script)
  {
    assert h + [User(userInput)] + [Assistant(first.content, first.toolCalls)] ==
           h + [User(userInput), Assistant(first.content, first.toolCalls)];
  }

  /** The history a tool round leaves: the history `withCalls` (ending with
      the assistant message carrying the calls) is kept, then come one tool
      message per call handled, in order and correlated by id and name, and
      at most one entry more, only when the round is answered. */
  lemma ToolRoundShape(withCalls: seq<Message>, s: Session, dispatch: Dispatcher, request: Request,
                       calls: seq<ToolCall>, second: Completion, script: nat -> CallScript)
    requires |withCalls| > 0 && withCalls[|withCalls| - 1].Assistant?
    ensures var r, n := ToolRound(withCalls, s, dispatch, request, calls, second, script), |withCalls|;
            n <= |r.history| <= n + |calls| + 1 && r.history[..n] == withCalls &&
            (forall i :: n <= i < |r.history| && i < n + |calls| ==>
               r.history[i].Tool? && r.history[i].toolCallId == calls[i - n].id &&
               r.history[i].name == calls[i - n].name) &&
            (r.outcome.Abandoned? ==> |r.history| <= n + |calls|)
  {
    var p := RunCalls(s, dispatch, calls, script);
    var r := ToolRound(withCalls, s, dispatch, request, calls, second, script);
    ToolRoundEnds(withCalls, s, dispatch, request, calls, second, script);
    ResultsShape(withCalls, p.messages, calls, r.history, r.outcome.Abandoned?);
  }

  /** The index bookkeeping behind `ToolRoundShape`: a history that is
      `withCalls` followed by correlated tool messages, and possibly one
      entry more, has that shape. */
  lemma ResultsShape(withCalls: seq<Message>, results: seq<Message>, calls: seq<ToolCall>, history: seq<Message>,
                     closed: bool)
    requires |results| <= |calls|
    requires forall i :: 0 <= i < |results| ==>
               results[i].Tool? && results[i].toolCallId == calls[i].id && results[i].name == calls[i].name
    requires closed ==> history == withCalls + results
    requires !closed ==> |results| == |calls| && |history| == |withCalls| + |results| + 1 &&
                         history[..|withCalls| + |results|] == withCalls + results
    ensures var n := |withCalls|;
            n <= |history| <= n + |calls| + 1 && history[..n] == withCalls &&
            (forall i :: n <= i < |history| && i < n + |calls| ==>
               history[i].Tool? && history[i].toolCallId == calls[i - n].id && history[i].name == calls[i - n].name) &&
            (closed ==> |history| <= n + |calls|)
  {
    var n, withResults := |withCalls|, withCalls + results;
    assert history[..|withResults|] == withResults;
    assert withResults[..n] == withCalls;
    assert history[..n] == withResults[..n];
    forall i | n <= i < |history| && i < n + |calls|
      ensures history[i] == results[i - n]
    {
      assert history[i] == history[..|withResults|][i] == withResults[i];
    }
  }

  /** How a tool round ends. A failure after the assistant message removes
      nothing: a stopped round or a failed follow-up leaves the history with
      every tool result. An answer comes only from a round that handled every
      call; it is appended after all the tool results, and was requested over
      exactly that history, without tools. */
  lemma ToolRoundEnds(withCalls: seq<Message>, s: Session, dispatch: Dispatcher, request: Request,
                      calls: seq<ToolCall>, second: Completion, script: nat -> CallScript)
    requires |withCalls| > 0 && withCalls[|withCalls| - 1].Assistant?
    ensures var r, p := ToolRound(withCalls, s, dispatch, request, calls, second, script), RunCalls(s, dispatch, calls, script);
            r.outcome.Abandoned? ==> r.history == withCalls + p.messages
    ensures var r, p := ToolRound(withCalls, s, dispatch, request, calls, second, script), RunCalls(s, dispatch, calls, script);
            r.outcome.Answered? ==>
              p.error.None? && second.Responded? && second.content.Some? &&
              r.history == withCalls + p.messages + [Assistant(second.content, second.toolCalls)] &&
              r.outcome == Answered(second.content.value) &&
              r.requests[1] == Request(withCalls + p.messages, None)
    // a completed round whose follow-up reply carries content is answered, appended and surfaced
    ensures var r, p := ToolRound(withCalls, s, dispatch, request, calls, second, script), RunCalls(s, dispatch, calls, script);
            p.error.None? && second.Responded? && second.content.Some? ==>
              r.outcome == Answered(second.content.value) &&
              r.history == withCalls + p.messages + [Assistant(second.content, second.toolCalls)] &&
              r.requests == [request, Request(withCalls + p.messages, None)]
  {
    var p := RunCalls(s, dispatch, calls, script);
    var withResults := withCalls + p.messages;
    if p.messages != [] {
      assert withResults[|withResults| - 1] == p.messages[|p.messages| - 1];
    } else {
      assert withResults[|withResults| - 1] == withCalls[|withCalls| - 1];
    }
    if p.error.Some? {
      assert Rollback(withResults) == withResults;
    }
  }

  /** Some assistant message before position `i` of `h` issued a tool call with id `id`. */
  ghost predicate IssuedBefore(h: seq<Message>, i: nat, id: string) {
    exists j, k :: 0 <= j < i && j < |h| && h[j].Assistant? && 0 <= k < |h[j].toolCalls| &&
                   h[j].toolCalls[k].id == id
  }

  /** Every tool message answers a tool call issued by an earlier assistant
      message. */
  ghost predicate Correlated(h: seq<Message>) {
    forall i :: 0 <= i < |h| && h[i].Tool? ==> IssuedBefore(h, i, h[i].toolCallId)
  }

  /** Whether a call was issued before position `i` depends only on the entries before `i`. */
  lemma IssuedBeforeAgrees(h: seq<Message>, g: seq<Message>, i: nat, id: string)
    requires i <= |h| && i <= |g| && h[..i] == g[..i]
    requires IssuedBefore(h, i, id)
    ensures IssuedBefore(g, i, id)
  {
    var j, k :| 0 <= j < i && j < |h| && h[j].Assistant? && 0 <= k < |h[j].toolCalls| &&
                h[j].toolCalls[k].id == id;
    assert g[j] == g[..i][j] == h[..i][j] == h[j];
  }

  /** Appending entries that are not tool messages keeps the history correlated. */
  lemma CorrelatedAppend(h: seq<Message>, g: seq<Message>)
    requires Correlated(h) && |h| <= |g| && g[..|h|] == h
    requires forall i :: |h| <= i < |g| ==> !g[i].Tool?
    ensures Correlated(g)
  {
    forall i | 0 <= i < |g| && g[i].Tool?
      ensures IssuedBefore(g, i, g[i].toolCallId)
    {
      assert g[i] == h[i] && h[..i] == g[..i];
      IssuedBeforeAgrees(h, g, i, h[i].toolCallId);
    }
  }

  /** A tool round keeps the history correlated: each tool message answers
      the assistant message that carries the round's calls. */
  lemma ToolRoundKeepsCorrelation(withCalls: seq<Message>, s: Session, dispatch: Dispatcher, request: Request,
                                  calls: seq<ToolCall>, second: Completion, script: nat -> CallScript)
    requires Correlated(withCalls)
    requires |withCalls| > 0 && withCalls[|withCalls| - 1].Assistant? && withCalls[|withCalls| - 1].toolCalls == calls
    ensures Correlated(ToolRound(withCalls, s, dispatch, request, calls, second, script).history)
  {
    var r := ToolRound(withCalls, s, dispatch, request, calls, second, script);
    ToolRoundShape(withCalls, s, dispatch, request, calls, second, script);
    ToolRoundEnds(withCalls, s, dispatch, request, calls, second, script);
    var n := |withCalls|;
    forall i | 0 <= i < |r.history| && r.history[i].Tool?
      ensures IssuedBefore(r.history, i, r.history[i].toolCallId)
    {
      if i < n {
        assert r.history[i] == withCalls[i] && r.history[..i] == withCalls[..i];
        IssuedBeforeAgrees(withCalls, r.history, i, withCalls[i].toolCallId);
      } else {
        assert r.history[n - 1] == withCalls[n - 1];
        assert r.history[n - 1].toolCalls[i - n].id == r.history[i].toolCallId;
      }
    }
  }

  /** A turn keeps the history correlated. */
  lemma TurnKeepsCorrelation(h: seq<Message>, s: Session, dispatch: Dispatcher, userInput: string, offered: seq<ToolDescriptor>,
                             first: Completion, second: Completion, script: nat -> CallScript)
    requires Correlated(h)
    ensures Correlated(Turn(h, s, dispatch, userInput, offered, first, second, script).history)
  {
    var r := Turn(h, s, dispatch, userInput, offered, first, second, script);
    if first.Responded? && first.toolCalls != [] {
      var withCalls := h + [User(userInput), Assistant(first.content, first.toolCalls)];
      assert withCalls[..|h|] == h;
      CorrelatedAppend(h, withCalls);
      TurnToolBranch(h, s, dispatch, userInput, offered, first, second, script);
      ToolRoundKeepsCorrelation(withCalls, s, dispatch, Request(h + [User(userInput)], Some(offered)),
                                first.toolCalls, second, script);
    } else {
      TurnIsAppendOnly(h, s, dispatch, userInput, offered, first, second, script);
      CorrelatedAppend(h, r.history);
    }
  }

  /** The inputs of one turn: the user's text and the oracles of that turn. */
  datatype TurnInput = TurnInput(userInput: string, first: Completion, second: Completion, script: nat -> CallScript)

  /** A sequence of turns run one after the other from history `h` and agent fields `s`. */
  function Conversation(h: seq<Message>, s: Session, dispatch: Dispatcher, turns: seq<TurnInput>): (r: (seq<Message>, Session))
    ensures |h| <= |r.0|
    decreases |turns|
  {
    if turns == [] then (h, s)
    else
      var t := turns[0];
      var step := Turn(h, s, dispatch, t.userInput, VisibleTools(s.client.Some?), t.first, t.second, t.script);
      TurnIsAppendOnly(h, s, dispatch, t.userInput, VisibleTools(s.client.Some?), t.first, t.second, t.script);
      Conversation(step.history, step.session, dispatch, turns[1..])
  }

  /** Over any sequence of turns from the initial history, the history keeps
      the system prompt first, only grows by appending, and every tool
      message answers an earlier tool call. */
  lemma {:induction false} ConversationInvariant(h: seq<Message>, s: Session, dispatch: Dispatcher, turns: seq<TurnInput>)
    requires |h| > 0 && Correlated(h)
    ensures var (h', _) := Conversation(h, s, dispatch, turns);
            |h| <= |h'| && h'[..|h|] == h && h'[0] == h[0] && Correlated(h')
    decreases |turns|
  {
    if turns != [] {
      var t := turns[0];
      var step := Turn(h, s, dispatch, t.userInput, VisibleTools(s.client.Some?), t.first, t.second, t.script);
      TurnIsAppendOnly(h, s, dispatch, t.userInput, VisibleTools(s.client.Some?), t.first, t.second, t.script);
      TurnKeepsCorrelation(h, s, dispatch, t.userInput, VisibleTools(s.client.Some?), t.first, t.second, t.script);
      assert step.history[0] == h[0];
      ConversationInvariant(step.history, step.session, dispatch, turns[1..]);
      var (h', _) := Conversation(step.history, step.session, dispatch, turns[1..]);
      assert h'[..|h|] == h'[..|step.history|][..|h|];
    }
  }

  /** The history and its turn loop (the local state of chat_loop). */
  class ChatSession {
    var history: seq<Message>

    constructor ()
      ensures history == [System(SystemPrompt)]
    {
      history := [System(SystemPrompt)];
    }

    /** The exception handler: pop the last entry if it is a user entry. */
    method DiscardTrailingUser()
      modifies this
      ensures history == Rollback(old(history))
    {
      if |history| > 0 && history[|history| - 1].User? {
        history := history[..|history| - 1];
      }
    }

    /** One iteration of the tool-call loop: decode the call's arguments,
        dispatch the call to the agent and append its output; `from` is
        where the round's tool messages start in the history. */
    method HandleCall(agent: M365Agent, call: ToolCall, sc: CallScript, ghost from: nat) returns (error: Option<string>)
      requires from <= |history|
      modifies this, agent
      ensures |old(history)| <= |history| && history[..|old(history)|] == old(history)
      ensures Step(Progress(old(agent.State()), old(history)[from..], None), AgentDispatch(agent.serverUrl), call, sc) ==
              Progress(agent.State(), history[from..], error)
    {
      error := None;
      match sc.args {
        case Failure(e) =>
          error := Some(e);
        case Success(args) =>
          var output, remote;
          if call.name == BootstrapName {
            output, remote := agent.ConnectAndAuthenticate(sc.connect);
          } else {
            output, remote := agent.ExecuteTool(call.name, args, sc.reply);
          }
          assert history[from..] + [Tool(call.id, call.name, output)] == (history + [Tool(call.id, call.name, output)])[from..];
          history := history + [Tool(call.id, call.name, output)];
      }
    }

    /** The tool-call loop: each call in turn goes to the agent and its
        output is appended as a tool message, until a call's arguments do
        not decode. */
    method RunToolCalls(agent: M365Agent, calls: seq<ToolCall>, script: nat -> CallScript)
      returns (error: Option<string>)
      modifies this, agent
      ensures |old(history)| <= |history| && history[..|old(history)|] == old(history)
      ensures RunCalls(old(agent.State()), AgentDispatch(agent.serverUrl), calls, script) ==
              Progress(agent.State(), history[|old(history)|..], error)
    {
      ghost var before := history;
      ghost var start := agent.State();
      var k := 0;
      error := None;
      while k < |calls| && error.None?
        invariant k <= |calls|
        invariant |before| <= |history| && history[..|before|] == before
        invariant RunCalls(start, AgentDispatch(agent.serverUrl), calls[..k], script) ==
                  Progress(agent.State(), history[|before|..], error)
      {
        RunCallsExtend(start, AgentDispatch(agent.serverUrl), calls, script, k);
        ghost var handled := history;
        error := HandleCall(agent, calls[k], script(k), |before|);
        assert history[..|before|] == history[..|handled|][..|before|];
        k := k + 1;
      }
      if error.Some? {
        StoppedRoundStaysStopped(start, AgentDispatch(agent.serverUrl), calls, script, k);
      } else {
        assert calls[..k] == calls;
      }
    }

    /** The follow-up request after a completed tool round, without tools. */
    method RequestFinalAnswer(request: Request, second: Completion) returns (outcome: TurnOutcome, requests: seq<Request>)
      modifies this
      ensures var r := FollowUp(old(history), request, second);
              history == r.history && outcome == r.outcome && requests == r.requests
    {
      requests := [request, Request(history, None)];
      match second {
        case Failed(e) =>
          outcome := Abandoned(e);
          DiscardTrailingUser();
        case Responded(final, finalCalls) =>
          if final.None? {
            outcome := Abandoned(MissingContent);
            DiscardTrailingUser();
          } else {
            history := history + [Assistant(final, finalCalls)];
            outcome := Answered(final.value);
          }
      }
    }

    /** The tool branch of the loop's body, once the assistant message
        carrying `calls` is in the history. */
    method CompleteToolRound(agent: M365Agent, request: Request, calls: seq<ToolCall>, second: Completion,
                             script: nat -> CallScript) returns (outcome: TurnOutcome, requests: seq<Request>)
      modifies this, agent
      ensures var r := ToolRound(old(history), old(agent.State()), AgentDispatch(agent.serverUrl), request, calls, second, script);
              history == r.history && agent.State() == r.session && outcome == r.outcome && requests == r.requests
    {
      ghost var withCalls := history;
      ghost var p := RunCalls(agent.State(), AgentDispatch(agent.serverUrl), calls, script);
      var error := RunToolCalls(agent, calls, script);
      assert history == withCalls + p.messages by {
        assert history == history[..|withCalls|] + history[|withCalls|..];
      }
      if error.Some? {
        outcome := Abandoned(error.value);
        requests := [request];
        DiscardTrailingUser();
      } else {
        outcome, requests := RequestFinalAnswer(request, second);
      }
    }

    /** One pass of the chat loop's body for the input `userInput`. */
    method RunTurn(agent: M365Agent, userInput: string, first: Completion, second: Completion,
                   script: nat -> CallScript) returns (outcome: TurnOutcome, requests: seq<Request>)
      modifies this, agent
      ensures var r := Turn(old(history), old(agent.State()), AgentDispatch(agent.serverUrl), userInput,
                            VisibleTools(old(agent.State()).client.Some?), first, second, script);
              history == r.history && agent.State() == r.session && outcome == r.outcome && requests == r.requests
    {
      history := history + [User(userInput)];
      var tools := [];
      if agent.mcpClient.None? {
        tools := tools + [BootstrapTool()];
      } else {
        tools := M365Tools();
      }
      assert tools == VisibleTools(agent.State().client.Some?);
      requests := [Request(history, Some(tools))];
      match first {
        case Failed(e) =>
          outcome := Abandoned(e);
          DiscardTrailingUser();
        case Responded(content, calls) =>
          if calls == [] {
            if content.None? {
              outcome := Abandoned(MissingContent);
              DiscardTrailingUser();
            } else {
              history := history + [Assistant(content, [])];
              outcome := Answered(content.value);
            }
          } else {
            history := history + [Assistant(content, calls)];
            outcome, requests := CompleteToolRound(agent, requests[0], calls, second, script);
          }
      }
    }
  }
}

=== FILE: wrappers.dfy ===
/** Optional values and results, used for the absent keys and raised
    exceptions of the agent's dictionaries and remote calls. */
module Wrappers {

  datatype Option<+T> = None | Some(value: T) {
    /** The value, or `default` when absent (Python's `dict.get(key, default)`). */
    function GetOr(default: T): T {
      match this
      case Some(v) => v
      case None => default
    }
  }

  datatype Result<+R, +E> = Success(value: R) | Failure(error: E)
}
